=== FILE: README.md ===
# PAWSIBLE pet records: the ownership-scoped state machine of `app.py`

The PAWSIBLE back end is a Flask application in which users sign up and log
in, keep pet records with an optional picture, and attach documents to their
pets. Every per-user `/api/...` route is gated on the session and scoped to
the logged-in user. This project models that core in Dafny as an immutable
`State`:

- `users`, `pets` and `docs` are maps from row id to row. They stand for the
  `User`, `Pet` and `Document` tables.
- `pictureFiles` and `documentFiles` are the names present in the two upload
  folders.
- `session` is the `(user_id, user_email)` pair, or `None` when nobody is
  logged in.

Each route handler is a pure function from a `State` and the request's
inputs to a `Step`. A `Step` holds the status code, the JSON body and the
next `State`. The handlers follow the source's branches in order: the session
gate, the input checks, the ownership lookups, and the cascades. The cascades
are the ORM's `cascade='all, delete-orphan'` on `User.pets` and on
`Pet.documents`.

Modules:

- `Wrappers`: `Option`.
- `Text`: ASCII lower-casing, the last or first occurrence of a character
  (`str.rsplit(c, 1)`), and decimal numerals.
- `Uploads`: `allowed_file`, `allowed_document_file`, the stored picture and
  document names, and what can be read back out of those names.
- `Model`: rows, state, the password credential, and the whole-state
  invariant `Valid`. `Valid` says four things:
  - emails are unique and non-empty;
  - every pet's owner exists;
  - every document's pet exists and has the document's owner;
  - a session names an existing user under that user's current email.
- `Accounts`, `Pets`, `Documents`: the fourteen JSON handlers.
- `Service`: the request datatype and `Handle`. It also holds invariant
  preservation, the 401 gate, and isolation between users.
- `Scenarios`: properties that span several requests, and concrete states
  that show the source's less obvious behaviour.

Inputs the code takes from its environment become parameters:

- `secure` stands for werkzeug's `secure_filename` and is left uninterpreted.
- `timestamp` is the `strftime` text.
- Ids that the database would assign are passed in, with a precondition that
  they are unused.

The password hash is modelled by `PwHash`. The only property the handlers
use holds for it: `Verify(Hash(p), q)` exactly when `p == q`.

SQLite keeps an INTEGER in a signed 64-bit word, `MinInteger` to
`MaxInteger`. Where the code hands SQLAlchemy a Python int, a value outside
that range raises `OverflowError`, and the route's `except` answers 500. The
model does the same for an age and for the id in a route path.

The model follows the code, including where it behaves less obviously:

- Age is not checked for sign, so `-2` is stored as given.
- `delete_pet` leaves the deleted pet's document files on disk.
- A picture that `allowed_file` rejects is dropped without an error.
- A picture is written to disk before the age is parsed. A non-numeric age,
  or one outside the 64-bit range, therefore answers 500 but leaves the
  picture file behind.
- A route id above `MaxInteger` answers 500, not 404, in `delete_pet`,
  `get_pet_documents` and `delete_document`.
- Stored names are unique only to the second: two uploads in the same second
  can share a name.
- `update_email`, `change_password` and `delete_account` answer 500, not 404, when the session's user is gone.

## Model

| member | source | states |
|---|---|---|
| `Text.LowerChar` | app.py:77 | `str.lower` on one character: an upper-case ASCII letter becomes its lower-case partner, any other character stays, and the result is never upper-case. |
| `Text.Lower` | app.py:77 | `str.lower` keeps the length and lowers each character as `LowerChar` does. |
| `Text.LastIndex` | app.py:77 | The position found holds the character and no later position does; None exactly when the character is absent (the split `rsplit('.', 1)` makes). |
| `Text.LastIndexOfLast` | app.py:77 | A dot with no dot after it is the one `rsplit('.', 1)` splits at. |
| `Text.LastIndexAppend` | app.py:230 | Prefixing text to a name that has a dot does not move the split to the prefix. |
| `Text.NatToString` | app.py:230 | `str(n)`: a non-empty run of digits with no leading zero, "0" for zero (so user 7's picture name starts "user_7_"). |
| `Text.LeadingZerosValue` | app.py:240 | Leading zeros do not change the value of a numeral. |
| `Text.ParseNatToString` | app.py:230 | Reading back the decimal rendering of an id gives the id (the f-string in the picture name, and the pet_id text of an upload). |
| `Text.ParseInt` | app.py:240 | `int(age)` succeeds exactly on an optionally signed, non-empty run of digits. |
| `Text.ParseIntNumeral` | app.py:240 | What `int()` returns: an optional sign, any leading zeros and the numeral of n give n, or -n after a '-'; so `int("+7") == 7` and `int("007") == 7`. |
| `Text.ParseIntToString` | app.py:240 | `int(str(i)) == i` for every integer, negative ones included. |
| `Uploads.Extension` | app.py:77 | None exactly when the name has no '.'; otherwise a text with no '.' in it. |
| `Uploads.AllowedFile` | app.py:76-77 | `allowed_file` accepts a name exactly when it can be cut at a '.' with no later '.', and the lower-cased rest is png, jpg, jpeg or gif. |
| `Uploads.AllowedDocumentFile` | app.py:79-80 | `allowed_document_file` accepts a name exactly when the same cut gives pdf, doc, docx, jpg, jpeg, png or txt. |
| `Uploads.AllowedExtensionIff` | app.py:76-80 | Both validators accept a name iff it can be cut at a '.' with no later '.', and the lower-cased rest is in the validator's set. |
| `Uploads.PictureValidatorAccepts` | app.py:76-77 | "a.PNG" and ".png" are accepted pictures. |
| `Uploads.PictureValidatorRejects` | app.py:76-77 | "png" (no dot) and "a.tar.gz" (only the last extension counts) are rejected pictures. |
| `Uploads.GifIsPictureOnly` | app.py:21 | gif is in the picture set but not in the document set. |
| `Uploads.PdfIsDocumentOnly` | app.py:26 | "vet.Pdf" is a document and not a picture. |
| `Uploads.DocumentValidatorRejects` | app.py:79-80 | An .exe and an empty name are not documents. |
| `Uploads.PictureOwnerReadsId` | app.py:230 | An id written between "user_" and the next '_' reads back out of the name, whatever follows. |
| `Uploads.ExtensionOfSuffix` | app.py:230 | Text put in front of a name with a '.' leaves its extension as it was. |
| `Uploads.PictureName` | app.py:227-230 | The stored picture name records the uploading user's id. When the secured name contains a '.', the stored name keeps its extension, so it passes `allowed_file` exactly when that name does. |
| `Uploads.DocumentName` | app.py:342-344 | For a type tag with no '.', the stored document name's extension is the lower-cased tag; a tag that is also lower-case and in the allowed set makes the stored name an allowed document name. |
| `Model.Hash` | app.py:134 | The credential `generate_password_hash` makes verifies the password it was made from and no other. |
| `Model.Verify` | app.py:159 | `check_password_hash` accepts a password exactly when the credential was made from it. |
| `Model.InitialValid` | app.py:72-74 | Empty tables satisfy the whole-state invariant. |
| `Model.PetsOf` | app.py:188 | The owner filter keeps exactly the pets with that owner, unchanged. |
| `Model.DocsOfPet` | app.py:389 | The pet filter keeps exactly the documents of that pet, unchanged. |
| `Model.RemoveFile` | app.py:422-424 | Removing a file that may be absent leaves it absent and every other name as it was. |
| `Accounts.Signup` | app.py:120-145 | 400 with no change when a field is missing or the email is taken, whatever the password. Otherwise 201 adds exactly one user, under whose credential only the given password verifies. Email uniqueness is preserved. |
| `Accounts.UserByEmail` | app.py:157 | Finds a user exactly when the email is registered, and the one found holds it. |
| `Accounts.Login` | app.py:147-170 | 200 iff some user holds the email and the password verifies. On success only the session changes, and it names that user. Otherwise 400 or 401 with no change. |
| `Accounts.Logout` | app.py:172-176 | Always 200; the session is cleared and nothing else changes. |
| `Accounts.GetUserInfo` | app.py:436-449 | 401 without a session, 404 for a vanished user, and under a current session the session's email. It never changes state. |
| `Accounts.UpdateEmail` | app.py:451-477 | Refuses an email held by another user. 500 when the session's user is gone. Otherwise it changes only the caller's email, and the session follows. Email uniqueness is preserved. Every failure leaves the state unchanged. |
| `Accounts.ChangePassword` | app.py:479-503 | 400 for a missing field, 500 when the session's user is gone, and 401 for a wrong current password, with the hash unchanged. On success only the new password verifies, and no other user changes. |
| `Accounts.PicturesOf` | app.py:514-519 | The picture files of a set of pets are exactly their non-empty picture names. |
| `Accounts.DocumentFilesOf` | app.py:521-526 | The document files of a set of pets are exactly the filenames of the documents attached to them. |
| `Accounts.DeleteAccount` | app.py:505-535 | 500 with no change when the session's user is gone. 200 removes the user, all their pets, all documents of those pets, and exactly those pictures and document files, and clears the session. Every other row and file stays. |
| `Pets.GetPets` | app.py:180-203 | Lists exactly the caller's pets, with their stored fields; never changes state. |
| `Pets.SavedPicture` | app.py:221-234 | A picture is saved exactly when it has a non-empty name that `allowed_file` accepts, and its stored name records the caller. |
| `Pets.StoredAge` | app.py:240-246 | The committed age is what `int(age)` reads, and it lies in SQLite's 64-bit range. A numeral in range of at most 4300 characters is stored; one out of range, or longer than 4301 characters, is not. |
| `Pets.AddPet` | app.py:205-260 | 400 with no change for a missing field. 201 exactly when `StoredAge` accepts the age: one new pet owned by the caller, with that age, and a picture column naming exactly the file just saved (none if the picture was not accepted), which is in the folder. 500 for an age `int()` or the commit rejects: no pet, but an accepted picture file stays. |
| `Pets.DeletePet` | app.py:262-286 | 500 with no change for an id beyond the 64-bit range, 404 with no change unless the caller owns the pet. 200 removes the pet, its picture file, and every document of that pet. Document files and all other rows stay. |
| `Documents.GetUserPetsForDocuments` | app.py:290-311 | Lists the id, name and breed of exactly the caller's pets; never changes state. |
| `Documents.FormPetId` | app.py:326 | A pet_id text selects a pet exactly when it is a non-empty run of decimal digits whose value fits the 64-bit range, and it selects the pet with that value. |
| `Documents.UploadDocument` | app.py:313-375 | The errors come in source order: 400, 404, 400, 400, 400, then 500 when the secured name has no '.'; none changes anything. 201 adds exactly one document, owned by the caller, on a pet the caller owns. Its type tag is the extension of the secured name, and its stored name carries that tag and is in the document folder. The tag is in the allowed set whenever sanitising kept the extension. |
| `Documents.GetPetDocuments` | app.py:377-407 | 500 for an id beyond the 64-bit range, 404 unless the caller owns the pet. Otherwise it returns the pet's name and exactly its documents, all owned by the caller under the invariant. It never changes state. |
| `Documents.DeleteDocument` | app.py:409-432 | 500 with no change for an id beyond the 64-bit range, 404 with no change unless the document's user_id is the caller. 200 removes exactly that row and its file. |
| `Service.Handle` | app.py:183-184 | Every per-user route answers 401 and leaves the state unchanged when the session has no user; the four read routes never change state; every answer is 200, 201, 400, 401, 404 or 500. |
| `Service.SignupPreservesValid` | app.py:130-137 | Signup keeps the whole-state invariant. |
| `Service.LoginPreservesValid` | app.py:157-161 | Login keeps the invariant; the session it sets is current. |
| `Service.AddPetPreservesValid` | app.py:237-246 | A new pet's owner exists. |
| `Service.DeletePetPreservesValid` | app.py:280-281 | No document is left pointing at the deleted pet. |
| `Service.UploadDocumentPreservesValid` | app.py:351-360 | A new document's owner equals its pet's owner. |
| `Service.DeleteDocumentPreservesValid` | app.py:426-427 | Deleting a document keeps the invariant. |
| `Service.UpdateEmailPreservesValid` | app.py:465-473 | Emails stay unique and the session stays current. |
| `Service.ChangePasswordPreservesValid` | app.py:498-499 | Changing a password keeps the invariant. |
| `Service.DeleteAccountPreservesValid` | app.py:528-531 | No pet or document is left pointing at the deleted user. |
| `Service.HandlePreservesValid` | app.py:36-70 | Every request keeps referential integrity, one owner per document chain, unique emails and a current session. |
| `Service.AddPetIsolated` | app.py:242 | Adding a pet changes no other user's account, pets or documents. |
| `Service.DeletePetIsolated` | app.py:269-281 | Deleting a pet changes no other user's account, pets or documents. |
| `Service.UploadDocumentIsolated` | app.py:326-360 | Uploading changes no other user's account, pets or documents. |
| `Service.DeleteDocumentIsolated` | app.py:416-427 | Deleting a document changes no other user's account, pets or documents. |
| `Service.DeleteAccountIsolated` | app.py:512-529 | Deleting an account changes no other user's account, pets or documents. |
| `Service.OtherUsersUntouched` | app.py:269 | No request changes the account, the pets or the documents of a user other than the logged-in one. |
| `Scenarios.SignupThenLogin` | app.py:134-161 | After signup the new account logs in with its password and with no other. |
| `Scenarios.ChangePasswordThenLogin` | app.py:495-498 | After a change the new password logs in and the old one does not; a wrong current password gets 401. |
| `Scenarios.UploadByDecimalId` | app.py:320-326 | Sending a pet's id as decimal text attaches the document to that pet. |
| `Scenarios.DeleteAccountLeavesNothing` | app.py:514-531 | After account deletion no pet, document, picture file or document file of the user remains. |
| `Scenarios.AddedPictureNamesOwner` | app.py:225-241 | A pet added with an allowed picture stores a picture name that records its owner. |
| `Scenarios.BadAgeLeavesPicture` | app.py:223-240 | A non-numeric age answers 500 with no pet, but the picture file has already been written. |
| `Scenarios.OversizedAgeLeavesPicture` | app.py:240-260 | An age of 2^63 reads as a number but fails the commit: 500, no pet, and the picture file stays. |
| `Scenarios.DisallowedPictureIgnored` | app.py:218-225 | A rejected picture is dropped silently, and a negative age is stored. |
| `Scenarios.DeletePetKeepsDocumentFiles` | app.py:274-281 | Deleting a pet drops its document rows but not their files. |
| `Scenarios.StaleSessionOrphansPet` | app.py:242 | With a session whose user is gone, add_pet creates a pet owned by nobody. |
| `Scenarios.SharedPictureLostOnDelete` | app.py:230 | Two pets with the same stored picture name lose the shared file when either is deleted. |
| `Scenarios.UploadRejectsExe` | app.py:339-372 | An .exe upload is refused with 400, whatever `secure_filename` makes of the name. |
| `Scenarios.UploadStoresPdf` | app.py:341-354 | A pdf upload is stored with type "pdf" under a generated name different from its own. |
| `Scenarios.PetLifecycle` | app.py:120-286 | Sign up, log in, add a pet aged 3, delete it: each step succeeds and the pet list is empty. |
| `Scenarios.UpdateEmailOwnAddress` | app.py:465-470 | Re-sending one's own email succeeds and changes nothing; another user's email is refused. |

## Left out

- The HTML page routes, templates and redirects (app.py:83-117), and the Flask, CORS and configuration setup (app.py:9-33). They are user interface and framework wiring.
- Query execution, commits and id generation. Tables are maps, and new ids are parameters that must be unused and within SQLite's 64-bit range. The SQLite rule that picks the next rowid is not modelled.
- Password hashing. `PwHash` keeps the password itself. Salting and one-wayness are not modelled; only the verify-exactly-the-hashed-password property is.
- `secure_filename` is an uninterpreted `string -> string` parameter. Its removal of every '.' is modelled as the 500 path of `UploadDocument`.
- Clocks. The `strftime` text is a parameter. The `created_at` and `uploaded_at` columns and the `uploaded_at` field of the document list are not modelled.
- File contents, `os.makedirs`, `file.save` and `os.remove`. Only membership in the two folders is modelled, with absent files removed as a no-op. A failing `os.remove` (a 500 after some files are gone) is not modelled.
- JSON and form fields are `Option<string>`. A non-string JSON value, a body that is not JSON, and the text of `str(e)` in 500 bodies are not modelled.
- Row order in list responses. The queries at app.py:188, app.py:298 and app.py:389 have no ORDER BY, so the lists are modelled as maps keyed by id.
- Several sessions at once. The model has one client session, and `Valid` asks that it be current. `Scenarios.StaleSessionOrphansPet` shows what the code does when another client has deleted the account.
- `Text.Lower` lowers ASCII letters only. Python's `str.lower` also lowers other letters, but no non-ASCII character lowers to text in either extension set, so the validators give the same answers.
- `Text.ParseInt` accepts only an optional sign followed by ASCII digits. Python's `int` also accepts surrounding whitespace, `_` between digits and non-ASCII digits; those ages are treated as rejected (500).
- `Documents.FormPetId` recognises a pet only from a plain run of digits. Other texts that SQLite's numeric conversion would match to an id, such as "7.0" or " 7", are treated as selecting no pet (404).
- `Accounts.Login`: requires unique emails. The unique constraint on the email column guarantees this, and it lets `filter_by(email).first()` be the single match.
- The isolation lemmas compare another user's account, pet rows and document rows, not the two upload folders. Stored names are not tied to their owners by an invariant, so the model does not claim that another user's files are untouched.
- Python builds older than the 4300-digit `int()` limit accept longer numerals. `Pets.StoredAge` follows the builds that have the limit; for an in-range value the two differ only on numerals padded with more than 4300 leading zeros.

=== FILE: accounts.dfy ===
/** The account handlers: /api/signup, /api/login, /api/logout and the
    /api/user/... settings routes (app.py:120-176, app.py:436-535). */
module Accounts {
  import opened Wrappers
  import opened Model

  /** POST /api/signup: register an email with a password. */
  function Signup(s: State, email: Option<string>, password: Option<string>, id: UserId): (r: Step)
    requires id !in s.users && FitsInteger(id)
    ensures !Given(email) || !Given(password) ==> r.status == 400 && r.next == s
    ensures Given(email) && EmailTaken(s.users, email.value) ==> r.status == 400 && r.next == s
    ensures r.status == 201 <==> Given(email) && Given(password) && !EmailTaken(s.users, email.value)
    ensures r.status == 201 ==>
      && r.body == EmailBody(email.value)
      && r.next.users.Keys == s.users.Keys + {id}
      && r.next.users[id].email == email.value
      && (forall q :: Verify(r.next.users[id].password, q) <==> q == password.value)
      && (forall u :: u in s.users ==> r.next.users[u] == s.users[u])
      && r.next == s.(users := r.next.users)
    ensures r.status in {201, 400}
    ensures EmailsUnique(s.users) ==> EmailsUnique(r.next.users)
  {
    if !Given(email) || !Given(password) then
      Step(400, Error("Email and password are required"), s)
    else if EmailTaken(s.users, email.value) then
      Step(400, Error("Email already registered"), s)
    else
      Step(201, EmailBody(email.value), s.(users := s.users[id := User(email.value, Hash(password.value))]))
  }

  /** The user registered under an email; the unique constraint on the email
      column makes the first match the only one. */
  function UserByEmail(users: map<UserId, User>, email: string): (r: Option<UserId>)
    requires EmailsUnique(users)
    ensures r.Some? <==> EmailTaken(users, email)
    ensures r.Some? ==> r.value in users && users[r.value].email == email
  {
    if EmailTaken(users, email) then
      var u :| u in users && users[u].email == email;
      Some(u)
    else None
  }

  /** POST /api/login: check the credentials and, on success, record the
      user in the session. */
  function Login(s: State, email: Option<string>, password: Option<string>): (r: Step)
    requires EmailsUnique(s.users)
    ensures !Given(email) || !Given(password) ==> r.status == 400 && r.next == s
    ensures r.status == 200 <==>
      Given(email) && Given(password) &&
      exists u :: u in s.users && s.users[u].email == email.value && Verify(s.users[u].password, password.value)
    ensures r.status == 200 ==>
      && r.next.session.Some?
      && r.next.session.value.email == email.value
      && r.next.session.value.userId in s.users
      && s.users[r.next.session.value.userId].email == email.value
      && Verify(s.users[r.next.session.value.userId].password, password.value)
      && r.next == s.(session := r.next.session)
    ensures r.status != 200 ==> r.next == s && r.status in {400, 401}
  {
    if !Given(email) || !Given(password) then
      Step(400, Error("Email and password are required"), s)
    else
      match UserByEmail(s.users, email.value)
      case Some(u) =>
        if Verify(s.users[u].password, password.value) then
          Step(200, EmailBody(email.value), s.(session := Some(Session(u, email.value))))
        else
          Step(401, Error("Invalid email or password"), s)
      case None =>
        Step(401, Error("Invalid email or password"), s)
  }

  /** POST /api/logout: forget the session; open to anyone. */
  function Logout(s: State): (r: Step)
    ensures r.status == 200 && r.next.session.None?
    ensures r.next.(session := s.session) == s
  {
    Step(200, Message("Logged out successfully"), s.(session := None))
  }

  /** GET /api/user/info: the logged-in user's email. */
  function GetUserInfo(s: State): (r: Step)
    ensures r.next == s
    ensures s.session.None? ==> r == Unauthorized(s)
    ensures s.session.Some? ==>
      (r.status == 200 <==> s.session.value.userId in s.users) &&
      (r.status != 200 ==> r.status == 404)
    ensures SessionCurrent(s) && s.session.Some? ==> r.status == 200 && r.body == EmailBody(s.session.value.email)
  {
    if s.session.None? then Unauthorized(s)
    else if s.session.value.userId !in s.users then Step(404, Error("User not found"), s)
    else Step(200, EmailBody(s.users[s.session.value.userId].email), s)
  }

  /** Some user other than me holds this email. */
  predicate HeldByOther(users: map<UserId, User>, me: UserId, email: string)
  {
    exists u :: u in users && users[u].email == email && u != me
  }

  /** PUT /api/user/update-email: change the caller's email unless another
      user holds it; the session email follows. */
  function UpdateEmail(s: State, newEmail: Option<string>): (r: Step)
    ensures s.session.None? ==> r == Unauthorized(s)
    ensures s.session.Some? && !Given(newEmail) ==> r.status == 400 && r.next == s
    ensures s.session.Some? && Given(newEmail) && HeldByOther(s.users, s.session.value.userId, newEmail.value) ==>
      r.status == 400 && r.next == s
    ensures
      && s.session.Some? && Given(newEmail) && !HeldByOther(s.users, s.session.value.userId, newEmail.value)
      && s.session.value.userId !in s.users
      ==> r.status == 500
    ensures r.status != 200 ==> r.next == s
    ensures r.status == 200 <==>
      s.session.Some? && Given(newEmail) && s.session.value.userId in s.users &&
      !HeldByOther(s.users, s.session.value.userId, newEmail.value)
    ensures r.status == 200 ==>
      var me := s.session.value.userId;
      && r.next.users.Keys == s.users.Keys
      && r.next.users[me] == s.users[me].(email := newEmail.value)
      && (forall u :: u in s.users && u != me ==> r.next.users[u] == s.users[u])
      && r.next.session == Some(Session(me, newEmail.value))
      && r.next == s.(users := r.next.users, session := r.next.session)
    ensures EmailsUnique(s.users) ==> EmailsUnique(r.next.users)
  {
    if s.session.None? then Unauthorized(s)
    else if !Given(newEmail) then Step(400, Error("New email is required"), s)
    else
      var me := s.session.value.userId;
      if HeldByOther(s.users, me, newEmail.value) then Step(400, Error("Email already in use"), s)
      else if me !in s.users then Internal(s)
      else
        Step(200, Message("Email updated successfully"),
          s.(users := s.users[me := s.users[me].(email := newEmail.value)],
             session := Some(Session(me, newEmail.value))))
  }

  /** PUT /api/user/change-password: replace the caller's password hash
      once the current password verifies. */
  function ChangePassword(s: State, current: Option<string>, replacement: Option<string>): (r: Step)
    ensures s.session.None? ==> r == Unauthorized(s)
    ensures s.session.Some? && (!Given(current) || !Given(replacement)) ==> r.status == 400 && r.next == s
    ensures s.session.Some? && Given(current) && Given(replacement) && s.session.value.userId !in s.users ==>
      r.status == 500
    ensures r.status != 200 ==> r.next == s
    ensures r.status == 401 <==>
      s.session.None? ||
      (Given(current) && Given(replacement) && s.session.value.userId in s.users &&
       !Verify(s.users[s.session.value.userId].password, current.value))
    ensures r.status == 200 <==>
      s.session.Some? && Given(current) && Given(replacement) && s.session.value.userId in s.users &&
      Verify(s.users[s.session.value.userId].password, current.value)
    ensures r.status == 200 ==>
      var me := s.session.value.userId;
      && r.next.users.Keys == s.users.Keys
      && r.next.users[me].email == s.users[me].email
      && (forall q :: Verify(r.next.users[me].password, q) <==> q == replacement.value)
      && (forall u :: u in s.users && u != me ==> r.next.users[u] == s.users[u])
      && r.next == s.(users := r.next.users)
  {
    if s.session.None? then Unauthorized(s)
    else if !Given(current) || !Given(replacement) then Step(400, Error("All fields are required"), s)
    else
      var me := s.session.value.userId;
      if me !in s.users then Internal(s)
      else if !Verify(s.users[me].password, current.value) then Step(401, Error("Current password is incorrect"), s)
      else
        Step(200, Message("Password changed successfully"),
          s.(users := s.users[me := s.users[me].(password := Hash(replacement.value))]))
  }

  /** The pet picture files a set of pets names (the truthy picture_filename values). */
  function PicturesOf(pets: map<PetId, Pet>): (r: set<string>)
    ensures forall f :: f in r <==> exists p :: p in pets && pets[p].picture == Some(f) && f != ""
  {
    set p | p in pets && Given(pets[p].picture) :: pets[p].picture.value
  }

  /** The document files of the documents attached to any of the given pets. */
  function DocumentFilesOf(docs: map<DocId, Doc>, pets: set<PetId>): (r: set<string>)
    ensures forall f :: f in r <==> exists d :: d in docs && docs[d].pet in pets && docs[d].filename == f
  {
    set d | d in docs && docs[d].pet in pets :: docs[d].filename
  }

  /** DELETE /api/user/delete-account: remove the caller, every pet they own
      (User.pets cascade), every document of those pets (Pet.documents
      cascade), the picture and document files of all of them, and the
      session. */
  function DeleteAccount(s: State): (r: Step)
    ensures s.session.None? ==> r == Unauthorized(s)
    ensures r.status != 200 ==> r.next == s
    ensures r.status == 200 <==> s.session.Some? && s.session.value.userId in s.users
    ensures s.session.Some? && s.session.value.userId !in s.users ==> r.status == 500
    ensures r.status == 200 ==>
      var me := s.session.value.userId;
      && (forall u :: u in r.next.users <==> u in s.users && u != me)
      && (forall u :: u in r.next.users ==> r.next.users[u] == s.users[u])
      && (forall p :: p in r.next.pets <==> p in s.pets && s.pets[p].owner != me)
      && (forall p :: p in r.next.pets ==> r.next.pets[p] == s.pets[p])
      && (forall d :: d in r.next.docs <==> d in s.docs && !Owns(s, me, s.docs[d].pet))
      && (forall d :: d in r.next.docs ==> r.next.docs[d] == s.docs[d])
      && (forall f :: f in r.next.pictureFiles <==>
            f in s.pictureFiles && !(exists p :: Owns(s, me, p) && s.pets[p].picture == Some(f) && f != ""))
      && (forall f :: f in r.next.documentFiles <==>
            f in s.documentFiles && !(exists d :: d in s.docs && Owns(s, me, s.docs[d].pet) && s.docs[d].filename == f))
      && r.next.session.None?
  {
    if s.session.None? then Unauthorized(s)
    else
      var me := s.session.value.userId;
      if me !in s.users then Internal(s)
      else
        var owned := PetsOf(s.pets, me);
        Step(200, Message("Account deleted successfully"),
          State(
            s.users - {me},
            map p | p in s.pets && p !in owned :: s.pets[p],
            map d | d in s.docs && s.docs[d].pet !in owned :: s.docs[d],
            s.pictureFiles - PicturesOf(owned),
            s.documentFiles - DocumentFilesOf(s.docs, owned.Keys),
            None))
  }
}

=== FILE: documents.dfy ===
/** The document handlers: /api/documents/pets, POST /api/documents,
    GET /api/documents/pet/<id>, DELETE /api/documents/<id>
    (app.py:290-432). */
module Documents {
  import opened Wrappers
  import opened Text
  import opened Uploads
  import opened Model

  /** GET /api/documents/pets: id, name and breed of every pet the caller owns. */
  function GetUserPetsForDocuments(s: State): (r: Step)
    ensures r.next == s
    ensures s.session.None? ==> r == Unauthorized(s)
    ensures s.session.Some? ==>
      && r.status == 200
      && r.body.PetChoices?
      && (forall p :: p in r.body.choices <==> Owns(s, s.session.value.userId, p))
      && (forall p :: p in r.body.choices ==>
            r.body.choices[p] == PetSummary(s.pets[p].name, s.pets[p].breed))
  {
    if s.session.None? then Unauthorized(s)
    else
      var owned := PetsOf(s.pets, s.session.value.userId);
      Step(200, PetChoices(map p | p in owned :: PetSummary(owned[p].name, owned[p].breed)), s)
  }

  /** The pet a pet_id form field selects. The field is text; SQLite compares
      it with the integer id column after converting it to a number, so a
      run of decimal digits within the 64-bit INTEGER range selects the pet
      with that value. A longer numeral converts to a REAL that equals no
      row id, and any other text selects none. */
  function FormPetId(field: string): (r: Option<PetId>)
    ensures r.Some? <==> |field| > 0 && AllDigits(field) && DigitsValue(field) <= MaxInteger
    ensures r.Some? ==> r.value == DigitsValue(field)
  {
    match ParseDecimal(field)
    case Some(v) => if v <= MaxInteger then Some(v) else None
    case None => None
  }

  /** Does the caller own the pet a pet_id form field selects? */
  predicate OwnsFormPet(s: State, user: UserId, field: string)
  {
    FormPetId(field).Some? && Owns(s, user, FormPetId(field).value)
  }

  /** POST /api/documents: attach an uploaded file to a pet the caller owns.
      Checks run in the order of the source: pet_id given (400), pet owned
      (404), file part present (400), file name non-empty (400), extension
      allowed (400). The stored name is built from the pet_id text, the
      timestamp and the lower-cased extension of the secured name; a secured
      name without a '.' makes the extension lookup raise (500). */
  function UploadDocument(s: State, petField: Option<string>, file: Option<string>,
                          secure: string -> string, timestamp: string, id: DocId): (r: Step)
    requires id !in s.docs && FitsInteger(id)
    ensures s.session.None? ==> r == Unauthorized(s)
    ensures r.status != 201 ==> r.next == s
    ensures s.session.Some? && !Given(petField) ==> r.status == 400
    ensures s.session.Some? && Given(petField) && !OwnsFormPet(s, s.session.value.userId, petField.value) ==>
      r.status == 404
    ensures s.session.Some? && Given(petField) && OwnsFormPet(s, s.session.value.userId, petField.value) ==>
      && (file.None? ==> r.status == 400)
      && (file == Some("") ==> r.status == 400)
      && (file.Some? && !AllowedDocumentFile(file.value) ==> r.status == 400)
    ensures
      && s.session.Some? && Given(petField) && OwnsFormPet(s, s.session.value.userId, petField.value)
      && file.Some? && file.value != "" && AllowedDocumentFile(file.value) && '.' !in secure(file.value)
      ==> r.status == 500
    ensures r.status == 201 <==>
      && s.session.Some? && Given(petField) && OwnsFormPet(s, s.session.value.userId, petField.value)
      && file.Some? && AllowedDocumentFile(file.value) && '.' in secure(file.value)
    ensures r.status == 201 ==>
      var me := s.session.value.userId;
      && r.next.docs.Keys == s.docs.Keys + {id}
      && (forall d :: d in s.docs ==> r.next.docs[d] == s.docs[d])
      && var doc := r.next.docs[id];
      && doc.pet == FormPetId(petField.value).value
      && doc.owner == me
      && s.pets[doc.pet].owner == me
      && doc.original == secure(file.value)
      && Extension(doc.original) == Some(doc.fileType)
      && Extension(doc.filename) == Some(doc.fileType)
      && doc.filename == DocumentName(petField.value, timestamp, doc.fileType)
      && (Extension(secure(file.value)) == Extension(file.value) ==>
            doc.fileType in DocumentExtensions && AllowedDocumentFile(doc.filename))
      && r.next.documentFiles == s.documentFiles + {doc.filename}
      && r.next == s.(docs := r.next.docs, documentFiles := r.next.documentFiles)
      && r.body == NewDoc(id, doc)
  {
    if s.session.None? then Unauthorized(s)
    else if !Given(petField) then Step(400, Error("Pet ID is required"), s)
    else
      var me := s.session.value.userId;
      if !OwnsFormPet(s, me, petField.value) then Step(404, Error("Pet not found"), s)
      else if file.None? then Step(400, Error("No file uploaded"), s)
      else if file.value == "" then Step(400, Error("No file selected"), s)
      else if !AllowedDocumentFile(file.value) then Step(400, Error("Invalid file type"), s)
      else
        var original := secure(file.value);
        match Extension(original)
        case None => Internal(s)
        case Some(ext) =>
          var stored := DocumentName(petField.value, timestamp, ext);
          LowerIdempotent(original[LastIndex(original, '.').value + 1..]);
          var doc := Doc(stored, original, ext, FormPetId(petField.value).value, me);
          Step(201, NewDoc(id, doc), s.(docs := s.docs[id := doc], documentFiles := s.documentFiles + {stored}))
  }

  /** GET /api/documents/pet/<id>: the name of a pet the caller owns and
      every document attached to it. An id too large for SQLite makes the
      lookup raise (500). */
  function GetPetDocuments(s: State, pet: PetId): (r: Step)
    ensures r.next == s
    ensures s.session.None? ==> r == Unauthorized(s)
    ensures s.session.Some? && !FitsInteger(pet) ==> r.status == 500
    ensures s.session.Some? && FitsInteger(pet) && !Owns(s, s.session.value.userId, pet) ==> r.status == 404
    ensures r.status == 200 <==> s.session.Some? && FitsInteger(pet) && Owns(s, s.session.value.userId, pet)
    ensures r.status == 200 ==>
      && r.body.DocList?
      && r.body.petName == s.pets[pet].name
      && (forall d :: d in r.body.docs <==> d in s.docs && s.docs[d].pet == pet)
      && (forall d :: d in r.body.docs ==> r.body.docs[d] == s.docs[d])
      && (DocsAttached(s) ==> forall d :: d in r.body.docs ==> r.body.docs[d].owner == s.session.value.userId)
  {
    if s.session.None? then Unauthorized(s)
    else if !FitsInteger(pet) then Internal(s)
    else if !Owns(s, s.session.value.userId, pet) then Step(404, Error("Pet not found"), s)
    else Step(200, DocList(s.pets[pet].name, DocsOfPet(s.docs, pet)), s)
  }

  /** DELETE /api/documents/<id>: remove a document whose user_id is the
      caller, and its file. An id too large for SQLite makes the lookup
      raise (500). */
  function DeleteDocument(s: State, doc: DocId): (r: Step)
    ensures s.session.None? ==> r == Unauthorized(s)
    ensures r.status != 200 ==> r.next == s
    ensures r.status == 200 <==>
      s.session.Some? && FitsInteger(doc) && doc in s.docs && s.docs[doc].owner == s.session.value.userId
    ensures s.session.Some? && !FitsInteger(doc) ==> r.status == 500
    ensures s.session.Some? && FitsInteger(doc) && r.status != 200 ==> r.status == 404
    ensures r.status == 200 ==>
      && (forall d :: d in r.next.docs <==> d in s.docs && d != doc)
      && (forall d :: d in r.next.docs ==> r.next.docs[d] == s.docs[d])
      && s.docs[doc].filename !in r.next.documentFiles
      && (forall f :: f in r.next.documentFiles <==> f in s.documentFiles && f != s.docs[doc].filename)
      && r.next == s.(docs := r.next.docs, documentFiles := r.next.documentFiles)
  {
    if s.session.None? then Unauthorized(s)
    else if !FitsInteger(doc) then Internal(s)
    else if doc !in s.docs || s.docs[doc].owner != s.session.value.userId then Step(404, Error("Document not found"), s)
    else
      Step(200, Message("Document deleted successfully"),
        s.(docs := s.docs - {doc}, documentFiles := RemoveFile(s.documentFiles, s.docs[doc].filename)))
  }
}

=== FILE: model.dfy ===
/** The application state: the three tables of app.py:36-70 as maps from
    row id to row, the two upload folders as sets of file names, and the
    caller's session. Each handler is a pure transition from one State to a
    Step (status code, response body, next State). */
module Model {
  import opened Wrappers

  type UserId = nat
  type PetId = nat
  type DocId = nat

  /** A stored password credential. The model keeps only what the handlers
      ask of it: the credential made from a password verifies that password
      and no other. */
  datatype PwHash = PwHash(secret: string)

  /** generate_password_hash: the credential it makes verifies exactly the
      password it was made from. */
  function Hash(password: string): (r: PwHash)
    ensures Verify(r, password)
    ensures forall q :: q != password ==> !Verify(r, q)
  {
    PwHash(password)
  }

  /** check_password_hash: a credential verifies a password exactly when it is
      the credential made from that password. */
  predicate Verify(h: PwHash, password: string)
    ensures Verify(h, password) <==> h == PwHash(password)
  {
    h.secret == password
  }

  /** A row of the user table. */
  datatype User = User(email: string, password: PwHash)

  /** A row of the pet table; picture is the stored picture file name. */
  datatype Pet = Pet(name: string, breed: string, age: int, picture: Option<string>, owner: UserId)

  /** A row of the document table; pet and owner are the two foreign keys. */
  datatype Doc = Doc(filename: string, original: string, fileType: string, pet: PetId, owner: UserId)

  /** The two keys the handlers keep in the session: user_id and user_email. */
  datatype Session = Session(userId: UserId, email: string)

  datatype State = State(
    users: map<UserId, User>,
    pets: map<PetId, Pet>,
    docs: map<DocId, Doc>,
    pictureFiles: set<string>,
    documentFiles: set<string>,
    session: Option<Session>)

  /** Empty tables, empty folders, nobody logged in. */
  const Initial: State := State(map[], map[], map[], {}, {}, None)

  /** The JSON body of a response: an 'error' or 'message' text, or the data
      a successful read or create returns. */
  datatype Body =
    | Error(error: string)
    | Message(message: string)
    | EmailBody(email: string)
    | PetList(pets: map<PetId, Pet>)
    | PetChoices(choices: map<PetId, PetSummary>)
    | NewPet(petId: PetId, pet: Pet)
    | DocList(petName: string, docs: map<DocId, Doc>)
    | NewDoc(docId: DocId, doc: Doc)

  /** The id, name and breed a document-upload page lists for each pet. */
  datatype PetSummary = PetSummary(name: string, breed: string)

  datatype Step = Step(status: int, body: Body, next: State)

  /** The reply of every per-user handler to a caller without user_id in the
      session: 401 before any table is read, state untouched. */
  function Unauthorized(s: State): Step
  {
    Step(401, Error("Not logged in"), s)
  }

  /** The reply of a handler whose body raised: the generic except clause
      answers 500, and nothing was committed. */
  function Internal(s: State): Step
  {
    Step(500, Error("internal error"), s)
  }

  /** SQLite keeps an INTEGER in a signed 64-bit word. Binding a Python int
      outside this range to a query or an INSERT raises OverflowError. */
  const MinInteger: int := -0x8000_0000_0000_0000
  const MaxInteger: int := 0x7FFF_FFFF_FFFF_FFFF

  predicate FitsInteger(i: int)
  {
    MinInteger <= i <= MaxInteger
  }

  /** Python truthiness of an optional string field: present and non-empty. */
  predicate Given(field: Option<string>)
  {
    field.Some? && field.value != ""
  }

  /** No two users share an email (the unique constraint of app.py:38). */
  predicate EmailsUnique(users: map<UserId, User>)
  {
    forall a, b :: a in users && b in users && users[a].email == users[b].email ==> a == b
  }

  /** Every stored email is non-empty: signup and update-email refuse an
      empty one. */
  predicate EmailsGiven(users: map<UserId, User>)
  {
    forall u :: u in users ==> users[u].email != ""
  }

  /** Some user holds this email. */
  predicate EmailTaken(users: map<UserId, User>, email: string)
  {
    exists u :: u in users && users[u].email == email
  }

  /** Every pet's owner is a user. */
  predicate PetOwnersExist(s: State)
  {
    forall p :: p in s.pets ==> s.pets[p].owner in s.users
  }

  /** Every document hangs off an existing pet and is owned by that pet's owner. */
  predicate DocsAttached(s: State)
  {
    forall d :: d in s.docs ==> s.docs[d].pet in s.pets && s.docs[d].owner == s.pets[s.docs[d].pet].owner
  }

  /** A session names an existing user under that user's current email. */
  predicate SessionCurrent(s: State)
  {
    s.session.Some? ==> s.session.value.userId in s.users && s.users[s.session.value.userId].email == s.session.value.email
  }

  /** The whole-state invariant every handler preserves. */
  predicate Valid(s: State)
  {
    EmailsUnique(s.users) && EmailsGiven(s.users) && PetOwnersExist(s) && DocsAttached(s) && SessionCurrent(s)
  }

  lemma InitialValid()
    ensures Valid(Initial)
  {
  }

  /** The pets a user owns (Pet.query.filter_by(user_id=...), User.pets). */
  function PetsOf(pets: map<PetId, Pet>, owner: UserId): (r: map<PetId, Pet>)
    ensures forall p :: p in r <==> p in pets && pets[p].owner == owner
    ensures forall p :: p in r ==> r[p] == pets[p]
  {
    map p | p in pets && pets[p].owner == owner :: pets[p]
  }

  /** The documents of one pet (Document.query.filter_by(pet_id=...), Pet.documents). */
  function DocsOfPet(docs: map<DocId, Doc>, pet: PetId): (r: map<DocId, Doc>)
    ensures forall d :: d in r <==> d in docs && docs[d].pet == pet
    ensures forall d :: d in r ==> r[d] == docs[d]
  {
    map d | d in docs && docs[d].pet == pet :: docs[d]
  }

  /** The documents whose user_id is this user. */
  function DocsOwnedBy(docs: map<DocId, Doc>, owner: UserId): (r: map<DocId, Doc>)
    ensures forall d :: d in r <==> d in docs && docs[d].owner == owner
    ensures forall d :: d in r ==> r[d] == docs[d]
  {
    map d | d in docs && docs[d].owner == owner :: docs[d]
  }

  /** The pet lookup filter_by(id=pet, user_id=user).first(): the pet exists
      and the caller owns it. */
  predicate Owns(s: State, user: UserId, pet: PetId)
  {
    pet in s.pets && s.pets[pet].owner == user
  }

  /** Deleting a file that may or may not be there (os.path.exists then
      os.remove): absent names are a no-op. */
  function RemoveFile(files: set<string>, name: string): (r: set<string>)
    ensures name !in r
    ensures forall f :: f in r <==> f in files && f != name
  {
    files - {name}
  }
}

=== FILE: pets.dfy ===
/** The pet handlers: GET and POST /api/pets, DELETE /api/pets/<id>
    (app.py:180-286). */
module Pets {
  import opened Wrappers
  import opened Text
  import opened Uploads
  import opened Model

  /** GET /api/pets: every pet the caller owns, with its stored fields. */
  function GetPets(s: State): (r: Step)
    ensures r.next == s
    ensures s.session.None? ==> r == Unauthorized(s)
    ensures s.session.Some? ==>
      && r.status == 200
      && r.body.PetList?
      && (forall p :: p in r.body.pets <==> Owns(s, s.session.value.userId, p))
      && (forall p :: p in r.body.pets ==> r.body.pets[p] == s.pets[p])
  {
    if s.session.None? then Unauthorized(s)
    else Step(200, PetList(PetsOf(s.pets, s.session.value.userId)), s)
  }

  /** Does the optional 'picture' part of the form get saved? Only when it
      has a non-empty file name that allowed_file accepts; anything else is
      ignored without an error. */
  predicate PictureAccepted(picture: Option<string>)
  {
    picture.Some? && picture.value != "" && AllowedFile(picture.value)
  }

  /** The name the picture is saved under, if it is saved; secure stands for
      werkzeug's secure_filename and timestamp for the formatted clock. */
  function SavedPicture(user: UserId, picture: Option<string>, secure: string -> string, timestamp: string): (r: Option<string>)
    ensures r.Some? <==> PictureAccepted(picture)
    ensures r.Some? ==> PictureOwner(r.value) == Some(user)
  {
    if PictureAccepted(picture) then
      Some(PictureName(user, timestamp, secure(picture.value)))
    else None
  }

  /** The longest numeral Python's int() reads: a text of more digits raises
      ValueError (sys.int_info.default_max_str_digits). */
  const MaxNumeralDigits: nat := 4300

  /** The age the pet row is committed with, or None when add_pet raises on
      the way: int(age) rejects a text that is not a numeral or that has more
      than MaxNumeralDigits digits, and the commit rejects a value outside
      SQLite's 64-bit INTEGER range. */
  function StoredAge(age: string): (r: Option<int>)
    ensures r.Some? ==> ParseInt(age) == r && FitsInteger(r.value)
    ensures ParseInt(age).Some? && FitsInteger(ParseInt(age).value) && |age| <= MaxNumeralDigits ==> r.Some?
    ensures ParseInt(age).Some? && !FitsInteger(ParseInt(age).value) ==> r.None?
    ensures |age| > MaxNumeralDigits + 1 ==> r.None?
  {
    var digits := if |age| > 0 && (age[0] == '-' || age[0] == '+') then |age| - 1 else |age|;
    match ParseInt(age)
    case Some(v) => if digits <= MaxNumeralDigits && FitsInteger(v) then Some(v) else None
    case None => None
  }

  /** POST /api/pets: create a pet owned by the caller. The picture, when
      accepted, is written to the picture folder before the age is parsed,
      so an age int() or the commit rejects still leaves that file behind. */
  function AddPet(s: State, name: Option<string>, breed: Option<string>, age: Option<string>,
                  picture: Option<string>, secure: string -> string, timestamp: string, id: PetId): (r: Step)
    requires id !in s.pets && FitsInteger(id)
    ensures s.session.None? ==> r == Unauthorized(s)
    ensures s.session.Some? && !(Given(name) && Given(breed) && Given(age)) ==> r.status == 400 && r.next == s
    ensures r.status == 201 <==>
      s.session.Some? && Given(name) && Given(breed) && Given(age) && StoredAge(age.value).Some?
    ensures r.status == 500 <==>
      s.session.Some? && Given(name) && Given(breed) && Given(age) && StoredAge(age.value).None?
    ensures r.status == 201 ==>
      var me := s.session.value.userId;
      && r.next.pets.Keys == s.pets.Keys + {id}
      && (forall p :: p in s.pets ==> r.next.pets[p] == s.pets[p])
      && var pet := r.next.pets[id];
      && pet.name == name.value && pet.breed == breed.value
      && ParseInt(age.value) == Some(pet.age) && FitsInteger(pet.age)
      && pet.owner == me
      && pet.picture == SavedPicture(me, picture, secure, timestamp)
      && (pet.picture.Some? <==> PictureAccepted(picture))
      && (pet.picture.Some? ==> pet.picture.value in r.next.pictureFiles && PictureOwner(pet.picture.value) == Some(me))
      && r.body == NewPet(id, pet)
    ensures r.status in {201, 500} ==>
      && r.next == s.(pets := r.next.pets, pictureFiles := r.next.pictureFiles)
      && r.next.pictureFiles ==
           s.pictureFiles + (if PictureAccepted(picture) then {SavedPicture(s.session.value.userId, picture, secure, timestamp).value} else {})
    ensures r.status == 500 ==> r.next.pets == s.pets
  {
    if s.session.None? then Unauthorized(s)
    else if !Given(name) || !Given(breed) || !Given(age) then Step(400, Error("All fields are required"), s)
    else
      var me := s.session.value.userId;
      var saved := SavedPicture(me, picture, secure, timestamp);
      var files := if saved.Some? then s.pictureFiles + {saved.value} else s.pictureFiles;
      match StoredAge(age.value)
      case None =>
        Step(500, Error("invalid literal for int()"), s.(pictureFiles := files))
      case Some(years) =>
        var pet := Pet(name.value, breed.value, years, saved, me);
        Step(201, NewPet(id, pet), s.(pets := s.pets[id := pet], pictureFiles := files))
  }

  /** DELETE /api/pets/<id>: remove a pet the caller owns, its picture file,
      and (by the Pet.documents cascade) its document rows. The document
      files stay in the document folder. An id too large for SQLite makes the
      lookup raise (500). */
  function DeletePet(s: State, id: PetId): (r: Step)
    ensures s.session.None? ==> r == Unauthorized(s)
    ensures s.session.Some? && !FitsInteger(id) ==> r.status == 500 && r.next == s
    ensures s.session.Some? && FitsInteger(id) && !Owns(s, s.session.value.userId, id) ==> r.status == 404 && r.next == s
    ensures r.status == 200 <==> s.session.Some? && FitsInteger(id) && Owns(s, s.session.value.userId, id)
    ensures r.status == 200 ==>
      && (forall p :: p in r.next.pets <==> p in s.pets && p != id)
      && (forall p :: p in r.next.pets ==> r.next.pets[p] == s.pets[p])
      && (forall d :: d in r.next.docs <==> d in s.docs && s.docs[d].pet != id)
      && (forall d :: d in r.next.docs ==> r.next.docs[d] == s.docs[d])
      && (forall f :: f in r.next.pictureFiles <==> f in s.pictureFiles && !(s.pets[id].picture == Some(f) && f != ""))
      && r.next.documentFiles == s.documentFiles
      && r.next.users == s.users && r.next.session == s.session
  {
    if s.session.None? then Unauthorized(s)
    else if !FitsInteger(id) then Internal(s)
    else if !Owns(s, s.session.value.userId, id) then Step(404, Error("Pet not found"), s)
    else
      var pet := s.pets[id];
      var pictures := if Given(pet.picture) then RemoveFile(s.pictureFiles, pet.picture.value) else s.pictureFiles;
      Step(200, Message("Pet deleted successfully"),
        s.(pets := s.pets - {id},
           docs := map d | d in s.docs && s.docs[d].pet != id :: s.docs[d],
           pictureFiles := pictures))
  }
}

=== FILE: scenarios.dfy ===
/** Properties that span several requests: credentials after signup and
    after a password change, a pet id sent as its decimal text, end-to-end
    flows (sign up, log in, add and delete a pet; upload an exe and a pdf),
    and states that show why the model claims no more than it does. */
module Scenarios {
  import opened Wrappers
  import opened Text
  import opened Uploads
  import opened Model
  import opened Accounts
  import opened Pets
  import opened Documents

  /** After a successful signup the new account logs in with its password,
      and with no other. */
  lemma SignupThenLogin(s: State, email: string, password: string, id: UserId, other: string)
    requires Valid(s) && id !in s.users && FitsInteger(id)
    requires Signup(s, Some(email), Some(password), id).status == 201
    ensures var t := Signup(s, Some(email), Some(password), id).next;
      && Login(t, Some(email), Some(password)).status == 200
      && Login(t, Some(email), Some(password)).next.session == Some(Session(id, email))
      && (other != "" && other != password ==> Login(t, Some(email), Some(other)).status == 401)
  {
    var t := Signup(s, Some(email), Some(password), id).next;
    assert t.users[id].email == email;
    assert EmailsUnique(t.users);
  }

  /** A correct current password replaces the credential: afterwards the new
      password logs in and the old one no longer does. A wrong current
      password is refused with 401. */
  lemma ChangePasswordThenLogin(s: State, previous: string, replacement: string, wrong: string)
    requires Valid(s) && s.session.Some?
    requires Verify(s.users[s.session.value.userId].password, previous)
    requires previous != "" && replacement != "" && wrong != "" && wrong != previous
    ensures ChangePassword(s, Some(wrong), Some(replacement)).status == 401
    ensures var t := ChangePassword(s, Some(previous), Some(replacement)).next;
      && ChangePassword(s, Some(previous), Some(replacement)).status == 200
      && Login(t, Some(s.session.value.email), Some(replacement)).status == 200
      && (previous != replacement ==> Login(t, Some(s.session.value.email), Some(previous)).status == 401)
  {
    var me := s.session.value.userId;
    var t := ChangePassword(s, Some(previous), Some(replacement)).next;
    assert t.users[me].email == s.session.value.email;
    assert Verify(t.users[me].password, replacement);
    assert EmailsUnique(t.users);
  }

  /** A pet_id field holding the decimal text of a pet the caller owns
      selects that pet; the document is attached to it. */
  lemma UploadByDecimalId(s: State, pet: PetId, file: string, secure: string -> string, timestamp: string, id: DocId)
    requires id !in s.docs && FitsInteger(id) && s.session.Some? && Owns(s, s.session.value.userId, pet) && pet <= MaxInteger
    requires AllowedDocumentFile(file) && '.' in secure(file)
    ensures UploadDocument(s, Some(NatToString(pet)), Some(file), secure, timestamp, id).status == 201
    ensures UploadDocument(s, Some(NatToString(pet)), Some(file), secure, timestamp, id).next.docs[id].pet == pet
  {
    ParseNatToString(pet);
  }

  /** A successful account deletion of a valid state leaves nothing of the
      user: no pet and no document refers to them, and none of their files
      is left in either folder. */
  lemma DeleteAccountLeavesNothing(s: State)
    requires Valid(s) && s.session.Some?
    ensures var me := s.session.value.userId;
      var t := DeleteAccount(s).next;
      && DeleteAccount(s).status == 200
      && me !in t.users
      && PetsOf(t.pets, me) == map[]
      && DocsOwnedBy(t.docs, me) == map[]
      && (forall p :: Owns(s, me, p) && Given(s.pets[p].picture) ==> s.pets[p].picture.value !in t.pictureFiles)
      && (forall d :: d in s.docs && s.docs[d].owner == me ==> s.docs[d].filename !in t.documentFiles)
  {
    var me := s.session.value.userId;
    var t := DeleteAccount(s).next;
    assert PetsOf(t.pets, me) == map[];
    forall d | d in t.docs ensures t.docs[d].owner != me {
      assert s.docs[d].owner == s.pets[s.docs[d].pet].owner;
    }
    assert DocsOwnedBy(t.docs, me) == map[];
  }

  /** The stored picture name of a pet names the user who added it. */
  lemma AddedPictureNamesOwner(s: State, name: string, breed: string, age: string, picture: string,
                               secure: string -> string, timestamp: string, id: PetId)
    requires id !in s.pets && FitsInteger(id) && s.session.Some? && name != "" && breed != "" && age != "" && StoredAge(age).Some?
    requires AllowedFile(picture)
    ensures var r := AddPet(s, Some(name), Some(breed), Some(age), Some(picture), secure, timestamp, id);
      && r.status == 201
      && r.next.pets[id].picture.Some?
      && PictureOwner(r.next.pets[id].picture.value) == Some(s.session.value.userId)
  {
  }

  /** An age that int() rejects answers 500 without a pet row, but an
      accepted picture was already written to the picture folder and stays
      there. */
  lemma BadAgeLeavesPicture(s: State, name: string, breed: string, age: string, picture: string,
                            secure: string -> string, timestamp: string, id: PetId)
    requires id !in s.pets && FitsInteger(id) && s.session.Some? && name != "" && breed != "" && age != ""
    requires ParseInt(age).None? && AllowedFile(picture)
    ensures var r := AddPet(s, Some(name), Some(breed), Some(age), Some(picture), secure, timestamp, id);
      && r.status == 500
      && r.next.pets == s.pets
      && PictureName(s.session.value.userId, timestamp, secure(picture)) in r.next.pictureFiles
  {
  }

  /** An age that int() reads but that does not fit SQLite's 64-bit INTEGER
      makes the commit raise: 500, no pet row, and the accepted picture
      still in the picture folder. */
  lemma OversizedAgeLeavesPicture(s: State, picture: string, secure: string -> string, timestamp: string, id: PetId)
    requires id !in s.pets && FitsInteger(id) && s.session.Some? && AllowedFile(picture)
    ensures var r := AddPet(s, Some("Rex"), Some("Lab"), Some(IntToString(MaxInteger + 1)), Some(picture), secure, timestamp, id);
      && r.status == 500
      && r.next.pets == s.pets
      && PictureName(s.session.value.userId, timestamp, secure(picture)) in r.next.pictureFiles
  {
    ParseIntToString(MaxInteger + 1);
  }

  /** A picture allowed_file rejects is dropped without an error: the pet is
      created without one and no file is written. Age is not checked for
      sign, so a negative age is stored as given. */
  lemma DisallowedPictureIgnored(s: State, picture: string, secure: string -> string, timestamp: string, id: PetId)
    requires id !in s.pets && FitsInteger(id) && s.session.Some? && !AllowedFile(picture)
    ensures var r := AddPet(s, Some("Rex"), Some("Lab"), Some("-2"), Some(picture), secure, timestamp, id);
      && r.status == 201
      && r.next.pets[id].picture.None?
      && r.next.pets[id].age == -2
      && r.next.pictureFiles == s.pictureFiles
  {
    assert "-2"[1..] == "2";
    assert ParseInt("-2") == Some(-2);
  }

  /** Deleting a pet drops its document rows but leaves their files in the
      document folder. */
  lemma DeletePetKeepsDocumentFiles(s: State, pet: PetId, doc: DocId)
    requires s.session.Some? && Owns(s, s.session.value.userId, pet) && FitsInteger(pet)
    requires doc in s.docs && s.docs[doc].pet == pet && s.docs[doc].filename in s.documentFiles
    ensures DeletePet(s, pet).status == 200
    ensures doc !in DeletePet(s, pet).next.docs
    ensures s.docs[doc].filename in DeletePet(s, pet).next.documentFiles
  {
  }

  /** With a session whose user no longer exists (an account deleted from
      another client), adding a pet still succeeds and creates a pet owned by
      nobody; this is why the invariant asks the session to be current. */
  lemma StaleSessionOrphansPet()
    ensures var s := State(map[], map[], map[], {}, {}, Some(Session(5, "gone@x.com")));
      var r := AddPet(s, Some("Rex"), Some("Lab"), Some("3"), None, f => f, "20240101_120000", 1);
      && r.status == 201
      && !PetOwnersExist(r.next)
  {
    var s := State(map[], map[], map[], {}, {}, Some(Session(5, "gone@x.com")));
    assert ParseInt("3") == Some(3);
    var r := AddPet(s, Some("Rex"), Some("Lab"), Some("3"), None, f => f, "20240101_120000", 1);
    assert r.next.pets[1].owner == 5;
  }

  /** Two pets added by one user in the same second with the same picture
      name share one stored file; deleting either removes the file the other
      still names. So the model claims no "every picture file exists"
      invariant. */
  lemma SharedPictureLostOnDelete()
    ensures var file := "user_1_pet_20240101_120000_rex.png";
      var s := State(
        map[1 := User("a@x.com", Hash("pw1"))],
        map[1 := Pet("Rex", "Lab", 3, Some(file), 1), 2 := Pet("Max", "Pug", 2, Some(file), 1)],
        map[], {file}, {}, Some(Session(1, "a@x.com")));
      var r := DeletePet(s, 1);
      && Valid(s) && r.status == 200
      && 2 in r.next.pets && r.next.pets[2].picture == Some(file)
      && file !in r.next.pictureFiles
  {
  }

  /** An upload whose name ends in an extension outside the set is refused
      with 400... */
  lemma UploadRejectsExe(s: State, pet: PetId, secure: string -> string, timestamp: string, id: DocId)
    requires id !in s.docs && FitsInteger(id) && s.session.Some? && Owns(s, s.session.value.userId, pet) && pet <= MaxInteger
    ensures UploadDocument(s, Some(NatToString(pet)), Some("x.exe"), secure, timestamp, id).status == 400
  {
    ParseNatToString(pet);
    assert OwnsFormPet(s, s.session.value.userId, NatToString(pet));
    assert !AllowedDocumentFile("x.exe") by {
      assert "x.exe"[2..] == "exe" && Lower("exe") == "exe";
      ExtensionAt("x.exe", 1, "exe");
    }
  }

  /** ...while a pdf is stored under a generated name that is not the name it
      was uploaded as. */
  lemma UploadStoresPdf(s: State, pet: PetId, timestamp: string, id: DocId)
    requires id !in s.docs && FitsInteger(id) && s.session.Some? && Owns(s, s.session.value.userId, pet) && pet <= MaxInteger
    ensures var r := UploadDocument(s, Some(NatToString(pet)), Some("x.pdf"), f => f, timestamp, id);
      && r.status == 201
      && r.next.docs[id].fileType == "pdf"
      && r.next.docs[id].filename != r.next.docs[id].original
  {
    ParseNatToString(pet);
    assert OwnsFormPet(s, s.session.value.userId, NatToString(pet));
    assert Extension("x.pdf") == Some("pdf") by {
      assert "x.pdf"[2..] == "pdf" && Lower("pdf") == "pdf";
      ExtensionAt("x.pdf", 1, "pdf");
    }
    assert AllowedDocumentFile("x.pdf");
    var r := UploadDocument(s, Some(NatToString(pet)), Some("x.pdf"), f => f, timestamp, id);
    assert r.next.docs[id].filename[0] == 'p';
  }

  /** Sign up, log in, add a pet aged 3, delete it: every step succeeds and
      the caller is left with no pets. */
  lemma PetLifecycle()
    ensures var s1 := Signup(Initial, Some("a@x.com"), Some("pw1"), 1);
      var s2 := Login(s1.next, Some("a@x.com"), Some("pw1"));
      var s3 := AddPet(s2.next, Some("Rex"), Some("Lab"), Some("3"), None, f => f, "20240101_120000", 1);
      var s4 := DeletePet(s3.next, 1);
      var s5 := GetPets(s4.next);
      && s1.status == 201 && s2.status == 200 && s3.status == 201 && s4.status == 200
      && s3.body.NewPet? && s3.body.pet.age == 3
      && s5.status == 200 && s5.body == PetList(map[])
  {
    var s1 := Signup(Initial, Some("a@x.com"), Some("pw1"), 1);
    assert s1.status == 201;
    var s2 := Login(s1.next, Some("a@x.com"), Some("pw1"));
    assert s1.next.users[1].email == "a@x.com";
    assert s2.status == 200;
    assert s2.next.session == Some(Session(1, "a@x.com"));
    assert ParseInt("3") == Some(3);
    var s3 := AddPet(s2.next, Some("Rex"), Some("Lab"), Some("3"), None, f => f, "20240101_120000", 1);
    assert s3.status == 201;
    var s4 := DeletePet(s3.next, 1);
    assert s4.next.pets == map[];
  }

  /** Re-submitting one's own email is accepted and changes nothing, while an
      email another user holds is refused. */
  lemma UpdateEmailOwnAddress(s: State, other: UserId)
    requires Valid(s) && s.session.Some?
    requires other in s.users && other != s.session.value.userId
    ensures UpdateEmail(s, Some(s.session.value.email)).status == 200
    ensures UpdateEmail(s, Some(s.session.value.email)).next == s
    ensures UpdateEmail(s, Some(s.users[other].email)).status == 400
  {
    var me := s.session.value.userId;
    assert s.users[me].(email := s.session.value.email) == s.users[me];
    assert s.users[me := s.users[me]] == s.users;
  }
}

=== FILE: service.dfy ===
/** The whole JSON API as one transition function over requests, and the
    properties that hold across handlers: the whole-state invariant, the
    session gate, and isolation between users. */
module Service {
  import opened Wrappers
  import opened Text
  import opened Uploads
  import opened Model
  import opened Accounts
  import opened Pets
  import opened Documents

  /** One call of an /api/... route with its inputs. Ids a create would draw
      from the database, the formatted clock and werkzeug's secure_filename
      travel with the request. */
  datatype Request =
    | SignupReq(email: Option<string>, password: Option<string>, newUser: UserId)
    | LoginReq(email: Option<string>, password: Option<string>)
    | LogoutReq
    | GetPetsReq
    | AddPetReq(name: Option<string>, breed: Option<string>, age: Option<string>, picture: Option<string>,
                secure: string -> string, timestamp: string, newPet: PetId)
    | DeletePetReq(pet: PetId)
    | PetChoicesReq
    | UploadDocumentReq(petField: Option<string>, file: Option<string>,
                        secure: string -> string, timestamp: string, newDoc: DocId)
    | PetDocumentsReq(pet: PetId)
    | DeleteDocumentReq(doc: DocId)
    | UserInfoReq
    | UpdateEmailReq(newEmail: Option<string>)
    | ChangePasswordReq(current: Option<string>, replacement: Option<string>)
    | DeleteAccountReq

  /** The routes that check for user_id in the session first. */
  predicate PerUser(req: Request)
  {
    !(req.SignupReq? || req.LoginReq? || req.LogoutReq?)
  }

  /** The id a create draws is not in use yet. */
  predicate IdsFresh(s: State, req: Request)
  {
    match req
    case SignupReq(_, _, id) => id !in s.users && FitsInteger(id)
    case AddPetReq(_, _, _, _, _, _, id) => id !in s.pets && FitsInteger(id)
    case UploadDocumentReq(_, _, _, _, id) => id !in s.docs && FitsInteger(id)
    case _ => true
  }

  /** The dispatcher of app.py's route table. Every per-user route answers
      401 to a caller without a session and changes nothing, whatever else
      the request carries; the four read routes never change state; and
      every answer is one of the status codes the routes use. */
  function Handle(s: State, req: Request): (r: Step)
    requires IdsFresh(s, req) && EmailsUnique(s.users)
    ensures s.session.None? && PerUser(req) ==> r.status == 401 && r.next == s
    ensures req.GetPetsReq? || req.PetChoicesReq? || req.PetDocumentsReq? || req.UserInfoReq? ==> r.next == s
    ensures r.status in {200, 201, 400, 401, 404, 500}
  {
    match req
    case SignupReq(email, password, id) => Signup(s, email, password, id)
    case LoginReq(email, password) => Login(s, email, password)
    case LogoutReq => Logout(s)
    case GetPetsReq => GetPets(s)
    case AddPetReq(name, breed, age, picture, secure, timestamp, id) => AddPet(s, name, breed, age, picture, secure, timestamp, id)
    case DeletePetReq(pet) => DeletePet(s, pet)
    case PetChoicesReq => GetUserPetsForDocuments(s)
    case UploadDocumentReq(petField, file, secure, timestamp, id) => UploadDocument(s, petField, file, secure, timestamp, id)
    case PetDocumentsReq(pet) => GetPetDocuments(s, pet)
    case DeleteDocumentReq(doc) => DeleteDocument(s, doc)
    case UserInfoReq => GetUserInfo(s)
    case UpdateEmailReq(newEmail) => UpdateEmail(s, newEmail)
    case ChangePasswordReq(current, replacement) => ChangePassword(s, current, replacement)
    case DeleteAccountReq => DeleteAccount(s)
  }

  lemma SignupPreservesValid(s: State, email: Option<string>, password: Option<string>, id: UserId)
    requires Valid(s) && id !in s.users && FitsInteger(id)
    ensures Valid(Signup(s, email, password, id).next)
  {
  }

  lemma LoginPreservesValid(s: State, email: Option<string>, password: Option<string>)
    requires Valid(s)
    ensures Valid(Login(s, email, password).next)
  {
  }

  lemma AddPetPreservesValid(s: State, name: Option<string>, breed: Option<string>, age: Option<string>,
                             picture: Option<string>, secure: string -> string, timestamp: string, id: PetId)
    requires Valid(s) && id !in s.pets && FitsInteger(id)
    ensures Valid(AddPet(s, name, breed, age, picture, secure, timestamp, id).next)
  {
  }

  lemma DeletePetPreservesValid(s: State, id: PetId)
    requires Valid(s)
    ensures Valid(DeletePet(s, id).next)
  {
  }

  lemma UploadDocumentPreservesValid(s: State, petField: Option<string>, file: Option<string>,
                                     secure: string -> string, timestamp: string, id: DocId)
    requires Valid(s) && id !in s.docs && FitsInteger(id)
    ensures Valid(UploadDocument(s, petField, file, secure, timestamp, id).next)
  {
  }

  lemma DeleteDocumentPreservesValid(s: State, doc: DocId)
    requires Valid(s)
    ensures Valid(DeleteDocument(s, doc).next)
  {
  }

  lemma UpdateEmailPreservesValid(s: State, newEmail: Option<string>)
    requires Valid(s)
    ensures Valid(UpdateEmail(s, newEmail).next)
  {
  }

  lemma ChangePasswordPreservesValid(s: State, current: Option<string>, replacement: Option<string>)
    requires Valid(s)
    ensures Valid(ChangePassword(s, current, replacement).next)
  {
  }

  lemma DeleteAccountPreservesValid(s: State)
    requires Valid(s)
    ensures Valid(DeleteAccount(s).next)
  {
  }

  /** Referential integrity, one owner per document chain, unique emails and
      a current session hold after every request. */
  lemma HandlePreservesValid(s: State, req: Request)
    requires Valid(s) && IdsFresh(s, req)
    ensures Valid(Handle(s, req).next)
  {
    match req
    case SignupReq(email, password, id) => SignupPreservesValid(s, email, password, id);
    case LoginReq(email, password) => LoginPreservesValid(s, email, password);
    case AddPetReq(name, breed, age, picture, secure, timestamp, id) =>
      AddPetPreservesValid(s, name, breed, age, picture, secure, timestamp, id);
    case DeletePetReq(pet) => DeletePetPreservesValid(s, pet);
    case UploadDocumentReq(petField, file, secure, timestamp, id) =>
      UploadDocumentPreservesValid(s, petField, file, secure, timestamp, id);
    case DeleteDocumentReq(doc) => DeleteDocumentPreservesValid(s, doc);
    case UpdateEmailReq(newEmail) => UpdateEmailPreservesValid(s, newEmail);
    case ChangePasswordReq(current, replacement) => ChangePasswordPreservesValid(s, current, replacement);
    case DeleteAccountReq => DeleteAccountPreservesValid(s);
    case _ =>
  }

  /** What a user other than the caller sees of two states is the same:
      their pets, their documents and their account. */
  predicate SameFor(s: State, t: State, other: UserId)
  {
    && PetsOf(t.pets, other) == PetsOf(s.pets, other)
    && DocsOwnedBy(t.docs, other) == DocsOwnedBy(s.docs, other)
    && (other in s.users ==> other in t.users && t.users[other] == s.users[other])
  }

  lemma AddPetIsolated(s: State, name: Option<string>, breed: Option<string>, age: Option<string>,
                       picture: Option<string>, secure: string -> string, timestamp: string, id: PetId, other: UserId)
    requires id !in s.pets && FitsInteger(id) && (s.session.Some? ==> other != s.session.value.userId)
    ensures SameFor(s, AddPet(s, name, breed, age, picture, secure, timestamp, id).next, other)
  {
    var t := AddPet(s, name, breed, age, picture, secure, timestamp, id).next;
    assert PetsOf(t.pets, other) == PetsOf(s.pets, other);
  }

  lemma DeletePetIsolated(s: State, id: PetId, other: UserId)
    requires Valid(s) && (s.session.Some? ==> other != s.session.value.userId)
    ensures SameFor(s, DeletePet(s, id).next, other)
  {
    var t := DeletePet(s, id).next;
    assert PetsOf(t.pets, other) == PetsOf(s.pets, other);
    assert DocsOwnedBy(t.docs, other) == DocsOwnedBy(s.docs, other);
  }

  lemma UploadDocumentIsolated(s: State, petField: Option<string>, file: Option<string>,
                               secure: string -> string, timestamp: string, id: DocId, other: UserId)
    requires id !in s.docs && FitsInteger(id) && (s.session.Some? ==> other != s.session.value.userId)
    ensures SameFor(s, UploadDocument(s, petField, file, secure, timestamp, id).next, other)
  {
    var t := UploadDocument(s, petField, file, secure, timestamp, id).next;
    assert DocsOwnedBy(t.docs, other) == DocsOwnedBy(s.docs, other);
  }

  lemma DeleteDocumentIsolated(s: State, doc: DocId, other: UserId)
    requires s.session.Some? ==> other != s.session.value.userId
    ensures SameFor(s, DeleteDocument(s, doc).next, other)
  {
    var t := DeleteDocument(s, doc).next;
    assert DocsOwnedBy(t.docs, other) == DocsOwnedBy(s.docs, other);
  }

  lemma DeleteAccountIsolated(s: State, other: UserId)
    requires Valid(s) && (s.session.Some? ==> other != s.session.value.userId)
    ensures SameFor(s, DeleteAccount(s).next, other)
  {
    var t := DeleteAccount(s).next;
    assert PetsOf(t.pets, other) == PetsOf(s.pets, other);
    assert DocsOwnedBy(t.docs, other) == DocsOwnedBy(s.docs, other);
  }

  /** No request changes the account, the pets or the documents of a user
      other than the one logged in. */
  lemma OtherUsersUntouched(s: State, req: Request, other: UserId)
    requires Valid(s) && IdsFresh(s, req)
    requires s.session.Some? ==> other != s.session.value.userId
    ensures SameFor(s, Handle(s, req).next, other)
  {
    match req
    case AddPetReq(name, breed, age, picture, secure, timestamp, id) =>
      AddPetIsolated(s, name, breed, age, picture, secure, timestamp, id, other);
    case DeletePetReq(pet) => DeletePetIsolated(s, pet, other);
    case UploadDocumentReq(petField, file, secure, timestamp, id) =>
      UploadDocumentIsolated(s, petField, file, secure, timestamp, id, other);
    case DeleteDocumentReq(doc) => DeleteDocumentIsolated(s, doc, other);
    case DeleteAccountReq => DeleteAccountIsolated(s, other);
    case UpdateEmailReq(newEmail) =>
      assert Handle(s, req) == UpdateEmail(s, newEmail);
    case ChangePasswordReq(current, replacement) =>
      assert Handle(s, req) == ChangePassword(s, current, replacement);
    case SignupReq(email, password, id) =>
      assert Handle(s, req) == Signup(s, email, password, id);
    case _ =>
  }
}

=== FILE: text.dfy ===
/** String helpers the handlers rely on: ASCII lower-casing (str.lower on the
    characters that can occur in an allowed extension), the split at the last
    or first occurrence of a character (str.rsplit(c, 1)), and decimal
    numerals (f-string rendering of an id, int() of a form field, and the
    integer coercion SQLite applies when a text value meets an INTEGER column). */
module Text {
  import opened Wrappers

  predicate IsUpper(c: char) { 'A' <= c <= 'Z' }

  predicate IsDigit(c: char) { '0' <= c <= '9' }

  predicate AllDigits(s: string)
  {
    forall i :: 0 <= i < |s| ==> IsDigit(s[i])
  }

  /** One character of str.lower: upper-case ASCII letters move to lower case,
      every other character stays. */
  function LowerChar(c: char): (r: char)
    ensures !IsUpper(r)
    ensures IsUpper(c) ==> r as int == c as int + 32
    ensures !IsUpper(c) ==> r == c
  {
    if IsUpper(c) then (c as int + 32) as char else c
  }

  /** str.lower on ASCII: the result has the same length and no upper-case
      letter; every other character stays where it was, and each upper-case
      letter becomes its lower-case partner. */
  function Lower(s: string): (r: string)
    ensures |r| == |s|
    ensures forall i :: 0 <= i < |s| ==> r[i] == LowerChar(s[i])
  {
    seq(|s|, i requires 0 <= i < |s| => LowerChar(s[i]))
  }

  /** Lower-casing twice is lower-casing once. */
  lemma LowerIdempotent(s: string)
    ensures Lower(Lower(s)) == Lower(s)
  {
  }

  /** Lower-casing never introduces a character it was not given a
      counterpart of; in particular it introduces no '.'. */
  lemma LowerKeepsDots(s: string)
    ensures '.' in Lower(s) <==> '.' in s
  {
    if '.' in s {
      var i :| 0 <= i < |s| && s[i] == '.';
      assert Lower(s)[i] == '.';
    }
    if '.' in Lower(s) {
      var i :| 0 <= i < |s| && Lower(s)[i] == '.';
      assert s[i] == '.';
    }
  }

  /** The position of the last c in s; the text after it is what
      s.rsplit(c, 1)[1] returns. */
  function LastIndex(s: string, c: char): (r: Option<nat>)
    ensures r.None? <==> c !in s
    ensures r.Some? ==> r.value < |s| && s[r.value] == c && c !in s[r.value + 1..]
  {
    if |s| == 0 then None
    else if s[|s| - 1] == c then Some(|s| - 1)
    else
      var front := s[..|s| - 1];
      assert s == front + [s[|s| - 1]];
      var r := LastIndex(front, c);
      assert r.Some? ==> s[r.value + 1..] == front[r.value + 1..] + [s[|s| - 1]];
      r
  }

  /** The position of the first c in s. */
  function FirstIndex(s: string, c: char): (r: Option<nat>)
    ensures r.None? <==> c !in s
    ensures r.Some? ==> r.value < |s| && s[r.value] == c && c !in s[..r.value]
  {
    if |s| == 0 then None
    else if s[0] == c then Some(0)
    else
      var r := FirstIndex(s[1..], c);
      assert s == [s[0]] + s[1..];
      assert r.Some? ==> s[..r.value + 1] == [s[0]] + s[1..][..r.value];
      if r.Some? then Some(r.value + 1) else None
  }

  /** A c with no c after it is the last c. */
  lemma LastIndexOfLast(s: string, c: char, i: nat)
    requires i < |s| && s[i] == c && c !in s[i + 1..]
    ensures LastIndex(s, c) == Some(i)
  {
    var j := LastIndex(s, c).value;
    assert forall k :: i < k < |s| ==> s[k] != c by {
      forall k | i < k < |s| ensures s[k] != c {
        assert s[k] == s[i + 1..][k - i - 1];
      }
    }
    assert forall k :: j < k < |s| ==> s[k] != c by {
      forall k | j < k < |s| ensures s[k] != c {
        assert s[k] == s[j + 1..][k - j - 1];
      }
    }
  }

  /** The last c in a + b lies in b whenever b holds one. */
  lemma {:induction false} LastIndexAppend(a: string, b: string, c: char)
    requires c in b
    ensures LastIndex(a + b, c) == Some(|a| + LastIndex(b, c).value)
  {
    var j := LastIndex(b, c).value;
    var s := a + b;
    assert s[|a| + j] == c;
    assert s[|a| + j + 1..] == b[j + 1..];
  }

  /** The first c in a + [c] + b is the one just after a when a holds none. */
  lemma {:induction false} FirstIndexAfter(a: string, b: string, c: char)
    requires c !in a
    ensures FirstIndex(a + [c] + b, c) == Some(|a|)
  {
    var s := a + [c] + b;
    assert s[|a|] == c;
  }

  function DigitChar(d: nat): (r: char)
    requires d < 10
    ensures IsDigit(r) && r as int == '0' as int + d
  {
    ('0' as int + d) as char
  }

  function DigitValue(c: char): (r: nat)
    requires IsDigit(c)
    ensures r < 10 && DigitChar(r) == c
  {
    c as int - '0' as int
  }

  /** The decimal numeral of n, as Python's str(n) or an f-string renders it. */
  function NatToString(n: nat): (r: string)
    ensures |r| > 0 && AllDigits(r)
    ensures n >= 1 ==> r[0] != '0'
    ensures n == 0 ==> r == "0"
    decreases n
  {
    if n < 10 then [DigitChar(n)] else NatToString(n / 10) + [DigitChar(n % 10)]
  }

  /** The value of a string of decimal digits. */
  function DigitsValue(s: string): nat
    requires AllDigits(s)
  {
    if |s| == 0 then 0 else DigitsValue(s[..|s| - 1]) * 10 + DigitValue(s[|s| - 1])
  }

  /** A non-empty string of ASCII decimal digits read as a number; anything
      else does not read as one. */
  function ParseDecimal(s: string): (r: Option<nat>)
    ensures r.Some? <==> |s| > 0 && AllDigits(s)
  {
    if |s| > 0 && AllDigits(s) then Some(DigitsValue(s)) else None
  }

  /** Reading back the numeral of n gives n. */
  lemma {:induction false} ParseNatToString(n: nat)
    ensures ParseDecimal(NatToString(n)) == Some(n)
    decreases n
  {
    var s := NatToString(n);
    if n < 10 {
      assert s[..|s| - 1] == [];
    } else {
      ParseNatToString(n / 10);
      var front := NatToString(n / 10);
      assert s[..|s| - 1] == front;
      assert DigitsValue(s) == DigitsValue(front) * 10 + n % 10;
    }
  }

  /** int(s) on a signed or unsigned run of ASCII digits; every other string
      is one int() rejects. */
  function ParseInt(s: string): (r: Option<int>)
    ensures r.Some? <==>
      || (|s| > 0 && AllDigits(s))
      || (|s| > 1 && (s[0] == '-' || s[0] == '+') && AllDigits(s[1..]))
  {
    if |s| > 0 && (s[0] == '-' || s[0] == '+') then
      match ParseDecimal(s[1..])
      case None => None
      case Some(v) =>
        var n: int := if s[0] == '-' then -(v as int) else v;
        Some(n)
    else
      match ParseDecimal(s)
      case None => None
      case Some(v) => Some(v)
  }

  /** Leading zeros do not change the value of a numeral. */
  lemma {:induction false} LeadingZerosValue(zeros: string, t: string)
    requires forall i :: 0 <= i < |zeros| ==> zeros[i] == '0'
    requires AllDigits(t)
    ensures AllDigits(zeros + t) && DigitsValue(zeros + t) == DigitsValue(t)
    decreases |zeros| + |t|
  {
    var s := zeros + t;
    assert AllDigits(s) by {
      forall i | 0 <= i < |s| ensures IsDigit(s[i]) {
        if i < |zeros| { assert s[i] == zeros[i]; } else { assert s[i] == t[i - |zeros|]; }
      }
    }
    if |t| == 0 {
      assert s == zeros;
      if |zeros| > 0 {
        assert s[..|s| - 1] == zeros[..|zeros| - 1] + t;
        LeadingZerosValue(zeros[..|zeros| - 1], t);
      }
    } else {
      assert s[..|s| - 1] == zeros + t[..|t| - 1];
      assert s[|s| - 1] == t[|t| - 1];
      LeadingZerosValue(zeros, t[..|t| - 1]);
    }
  }

  /** What int() returns: an optional sign, any number of leading zeros and
      the numeral of n read as n, negated after a '-'. So int("+7") == 7 and
      int("007") == 7. */
  lemma ParseIntNumeral(sign: string, zeros: string, n: nat)
    requires sign in {"", "+", "-"}
    requires forall i :: 0 <= i < |zeros| ==> zeros[i] == '0'
    ensures ParseInt(sign + zeros + NatToString(n)) == Some(if sign == "-" then -(n as int) else n)
  {
    var digits := zeros + NatToString(n);
    ParseNatToString(n);
    LeadingZerosValue(zeros, NatToString(n));
    assert ParseDecimal(digits) == Some(n);
    var s := sign + zeros + NatToString(n);
    assert s == sign + digits;
    if sign == "" {
      assert s == digits;
      assert IsDigit(s[0]);
    } else {
      assert s[0] == sign[0] && s[1..] == digits;
    }
  }

  /** str(i) for an int. */
  function IntToString(i: int): (r: string)
  {
    if i < 0 then "-" + NatToString(-i) else NatToString(i)
  }

  /** int(str(i)) == i. */
  lemma ParseIntToString(i: int)
    ensures ParseInt(IntToString(i)) == Some(i)
  {
    if i < 0 {
      var digits := NatToString(-i);
      ParseNatToString(-i);
      assert IntToString(i) == "-" + digits;
      assert ("-" + digits)[0] == '-' && ("-" + digits)[1..] == digits;
    } else {
      ParseNatToString(i);
      assert IsDigit(NatToString(i)[0]);
    }
  }
}

=== FILE: uploads.dfy ===
/** The two upload validators and the two stored-file-name builders
    (app.py:21, app.py:26, app.py:76-80, app.py:229-230, app.py:341-344). */
module Uploads {
  import opened Wrappers
  import opened Text

  /** Extensions a pet picture may carry. */
  const PictureExtensions: set<string> := {"png", "jpg", "jpeg", "gif"}

  /** Extensions a pet document may carry. */
  const DocumentExtensions: set<string> := {"pdf", "doc", "docx", "jpg", "jpeg", "png", "txt"}

  /** The lower-cased text after the last '.', or None when there is no '.'
      (name.rsplit('.', 1)[1].lower()). */
  function Extension(name: string): (r: Option<string>)
    ensures r.None? <==> '.' !in name
    ensures r.Some? ==> '.' !in r.value
  {
    match LastIndex(name, '.')
    case None => None
    case Some(i) =>
      LowerKeepsDots(name[i + 1..]);
      Some(Lower(name[i + 1..]))
  }

  predicate HasAllowedExtension(name: string, allowed: set<string>)
  {
    Extension(name).Some? && Extension(name).value in allowed
  }

  /** allowed_file: may this upload become a pet picture? Exactly when the
      name can be cut at a '.' with no '.' after it and the lower-cased rest
      is a picture extension. */
  predicate AllowedFile(name: string)
    ensures AllowedFile(name) <==>
      exists i :: CutAt(name, i, PictureExtensions)
  {
    AllowedExtensionIff(name, PictureExtensions);
    HasAllowedExtension(name, PictureExtensions)
  }

  /** allowed_document_file: may this upload become a pet document? The same
      cut, against the document extensions. */
  predicate AllowedDocumentFile(name: string)
    ensures AllowedDocumentFile(name) <==>
      exists i :: CutAt(name, i, DocumentExtensions)
  {
    AllowedExtensionIff(name, DocumentExtensions);
    HasAllowedExtension(name, DocumentExtensions)
  }

  /** The name can be cut at position i: a '.' with no further '.' after it,
      and the lower-cased remainder is in the allowed set. */
  predicate CutAt(name: string, i: int, allowed: set<string>)
  {
    0 <= i < |name| && name[i] == '.' && '.' !in name[i + 1..] && Lower(name[i + 1..]) in allowed
  }

  /** A name passes a validator exactly when it can be cut at some '.' with no
      further '.' after it, and the lower-cased remainder is an allowed
      extension. */
  lemma AllowedExtensionIff(name: string, allowed: set<string>)
    ensures HasAllowedExtension(name, allowed) <==>
      exists i :: CutAt(name, i, allowed)
  {
    if HasAllowedExtension(name, allowed) {
      assert CutAt(name, LastIndex(name, '.').value, allowed);
    }
    if exists i :: CutAt(name, i, allowed) {
      var i :| CutAt(name, i, allowed);
      LastIndexOfLast(name, '.', i);
    }
  }

  /** The extension of a name, read off at its last '.'. */
  lemma ExtensionAt(name: string, i: nat, ext: string)
    requires i < |name| && name[i] == '.' && '.' !in name[i + 1..]
    requires Lower(name[i + 1..]) == ext
    ensures Extension(name) == Some(ext)
  {
    LastIndexOfLast(name, '.', i);
  }

  /** allowed_file ignores case and accepts a bare extension. */
  lemma PictureValidatorAccepts()
    ensures AllowedFile("a.PNG") && AllowedFile(".png")
  {
    assert AllowedFile("a.PNG") by {
      assert "a.PNG"[1] == '.' && "a.PNG"[2..] == "PNG";
      assert Lower("PNG") == "png" by {
        assert Lower("PNG")[0] == 'p' && Lower("PNG")[1] == 'n' && Lower("PNG")[2] == 'g';
      }
      ExtensionAt("a.PNG", 1, "png");
    }
    assert AllowedFile(".png") by {
      assert ".png"[1..] == "png" && Lower("png") == "png";
      ExtensionAt(".png", 0, "png");
    }
  }

  /** allowed_file rejects a name without a dot, and only the text after the
      last dot counts. */
  lemma PictureValidatorRejects()
    ensures !AllowedFile("png") && !AllowedFile("a.tar.gz")
  {
    assert "a.tar.gz"[6..] == "gz" && Lower("gz") == "gz";
    ExtensionAt("a.tar.gz", 5, "gz");
  }

  /** The two validators differ in their sets: gif is a picture only... */
  lemma GifIsPictureOnly()
    ensures AllowedFile("cat.gif") && !AllowedDocumentFile("cat.gif")
  {
    assert "cat.gif"[4..] == "gif" && Lower("gif") == "gif";
    ExtensionAt("cat.gif", 3, "gif");
  }

  /** ...and pdf, in any case, a document only. */
  lemma PdfIsDocumentOnly()
    ensures AllowedDocumentFile("vet.Pdf") && !AllowedFile("vet.Pdf")
  {
    assert "vet.Pdf"[4..] == "Pdf" && Lower("Pdf") == "pdf";
    ExtensionAt("vet.Pdf", 3, "pdf");
  }

  /** allowed_document_file rejects an executable and an empty name. */
  lemma DocumentValidatorRejects()
    ensures !AllowedDocumentFile("setup.exe") && !AllowedDocumentFile("")
  {
    assert !AllowedDocumentFile("setup.exe") by {
      assert "setup.exe"[6..] == "exe" && Lower("exe") == "exe";
      ExtensionAt("setup.exe", 5, "exe");
    }
    assert Extension("") == None;
  }

  /** Reads the owning user id back out of a stored picture name. */
  function PictureOwner(name: string): Option<nat>
  {
    if |name| >= 5 && name[..5] == "user_" then
      var rest := name[5..];
      match FirstIndex(rest, '_')
      case None => None
      case Some(i) => ParseDecimal(rest[..i])
    else None
  }

  /** PictureOwner reads back any id written between "user_" and the next
      '_', whatever follows. */
  lemma PictureOwnerReadsId(userId: nat, tail: string)
    ensures PictureOwner("user_" + NatToString(userId) + "_" + tail) == Some(userId)
  {
    var digits := NatToString(userId);
    var rest := digits + ['_'] + tail;
    assert "user_" + digits + "_" + tail == "user_" + rest;
    assert FirstIndex(rest, '_') == Some(|digits|) by {
      assert '_' !in digits;
      FirstIndexAfter(digits, tail, '_');
    }
    assert ParseDecimal(rest[..|digits|]) == Some(userId) by {
      assert rest[..|digits|] == digits;
      ParseNatToString(userId);
    }
    assert ("user_" + rest)[..5] == "user_" && ("user_" + rest)[5..] == rest;
  }

  /** Text put in front of a name that has a '.' does not change the name's
      extension. */
  lemma ExtensionOfSuffix(front: string, tail: string)
    requires '.' in tail
    ensures Extension(front + tail) == Extension(tail)
  {
    LastIndexAppend(front, tail, '.');
    var j := LastIndex(tail, '.').value;
    assert (front + tail)[|front| + j + 1..] == tail[j + 1..];
  }

  /** The name a picture is stored under:
      user_{user_id}_pet_{timestamp}_{secured name}. It records the uploading
      user, and it keeps the extension of the secured name, so it passes
      allowed_file exactly when that name does. */
  function PictureName(userId: nat, timestamp: string, secured: string): (r: string)
    ensures PictureOwner(r) == Some(userId)
    ensures '.' in secured ==> Extension(r) == Extension(secured)
    ensures '.' in secured ==> (AllowedFile(r) <==> AllowedFile(secured))
  {
    var front := "user_" + NatToString(userId) + "_pet_" + timestamp + "_";
    PictureOwnerReadsId(userId, "pet_" + timestamp + "_" + secured);
    assert front + secured == "user_" + NatToString(userId) + "_" + ("pet_" + timestamp + "_" + secured);
    if '.' in secured then ExtensionOfSuffix(front, secured); front + secured
    else front + secured
  }

  /** The name a document is stored under: pet_{pet_id}_doc_{timestamp}.{ext},
      with the pet id as the client sent it. It ends in '.' and the type tag,
      so reading its extension back gives the tag, and a tag from the allowed
      set makes the stored name an allowed document name too. */
  function DocumentName(petIdText: string, timestamp: string, ext: string): (r: string)
    ensures '.' !in ext ==> Extension(r) == Some(Lower(ext))
    ensures '.' !in ext && ext in DocumentExtensions && Lower(ext) == ext ==> AllowedDocumentFile(r)
  {
    var front := "pet_" + petIdText + "_doc_" + timestamp;
    var tail := "." + ext;
    assert front + tail == "pet_" + petIdText + "_doc_" + timestamp + "." + ext;
    if '.' !in ext then
      assert tail[1..] == ext;
      ExtensionAt(tail, 0, Lower(ext));
      ExtensionOfSuffix(front, tail);
      front + tail
    else front + tail
  }
}

=== FILE: wrappers.dfy ===
/** The optional-value datatype used throughout the model: a missing form or
    JSON field, a failed parse, a pet without a picture. */
module Wrappers {

  datatype Option<+T> = None | Some(value: T)
}
